=== FILE: README.md ===
# Test bounties: a Dafny model of the bounty lifecycle

The VS Code extension attaches satoshi bounties to unit tests and pays them
out through an LNbits wallet. Its core is a `Map<string, BountyInfo>` keyed
by test id. Four command handlers change this map in place: add, remove,
check funding, and claim. The claim handler ends with a creator decision,
which either runs `executePayout` (approve) or marks the claim rejected.
After each change the handlers write the whole map to `globalState`.
A code-lens provider shows at most one lens per bounty shown in the
document, chosen by the bounty's status.

The model has seven modules:

- `BountyTypes` (bounty_types.dfy) holds the `BountyInfo` record as the
  datatype `Bounty`. Optional properties are `Option`s. It also holds the
  four-valued `ClaimStatus` and the JavaScript truthiness the guards test
  (`Truthy`, `IsPaid`).
- `Amount` (amount.dfy) holds `parseInt` on decimal text, the amount
  prompt's `validateInput`, and the decimal form of a number. They are
  linked by a round-trip lemma.
- `Gateway` (gateway.dfy) holds the four LNbits requests as values, the
  response of a `fetch` (ok, non-ok, or thrown), the memos, and
  `getWalletId`.
- `BountyLifecycle` (lifecycle.dfy) states each handler as a pure
  transition. A transition maps the store, the prompt answers, the stored
  credentials and the gateway responses to an `Effect`. The `Effect` holds
  the outcome, the new store, the requests sent in order, whether the
  change event fired, whether the store was persisted, and which
  credentials were saved. This module also proves properties of single
  handlers and of every sequence of handlers.
- `BountyCommands` (bounty_store.dfy) holds the class `BountyStore`. It
  keeps the map, a ghost copy of the persisted snapshot, and a count of
  change events. It has one method per handler, each running the handler
  step by step. Each method's postcondition equates what it did with the
  matching transition. Its invariant `Valid()` says that the persisted
  snapshot equals the map after every handler.
- `BountyCodeLens` (code_lens.dfy) holds `provideCodeLenses`. It is a loop
  over the map's entries, proved equal to a recursive filter. The
  status-to-lens choice is a function.
- `Wrappers` (wrappers.dfy) holds `Option`.

Prompt answers, the configured LNbits URL and key, the clock and every
HTTP response are parameters. The requests a handler sends are returned
as a list.

Two guarantees of the host are preconditions:

- the amount prompt only returns text that its `validateInput` accepts
  (`AmountPromptResult`);
- the claim prompt only returns text starting with `lnbc`
  (`ClaimPromptResult`).

The creator's decision has two entry points. `ApproveClaim` and
`RejectClaim` take the record that the claim left pending. The model keeps
these behaviours of the code:

- Both write the record back with `set(test.id, …)`. This re-inserts a
  bounty that was removed in the meantime.
- Approval fires the change event whether or not the payout succeeded.
- The claim handler persists the pending record but does not fire the
  event.
- The payout uses the record's own `creatorApiKey`. The stored secret is
  not an input of the payout.

Three further facts about the code, which the model keeps as they are:

- Approval fires the change event after `executePayout` returns, also
  when the URL or the record's key was missing or the payout failed
  (src/bounty/bounty.util.ts:320-321). This happens even though the
  comment there says the event fires after a successful payout.
- The invoice `fetch` of the add handler is outside any `try`
  (src/bounty/bounty.util.ts:77-88). A thrown request escapes the
  handler. The model reports it as the outcome `NetworkFailure` with the
  store unchanged.
- The add handler saves prompted credentials before the invoice request
  (src/bounty/bounty.util.ts:69-70). They stay saved when that request
  fails.

A payout invoice without the `lnbc` prefix never reaches the claim
handler, because the prompt's `validateInput` refuses it. The model
states this as the precondition `ClaimPromptResult`.

## Model

| member | source | states |
|---|---|---|
| `BountyTypes.ParseStatus` | src/bounty/bounty.types.ts:17 | a status literal is accepted exactly when it is one of 'none', 'pending', 'approved', 'rejected', and reads back as the status that prints it |
| `BountyTypes.StatusNameRoundTrip` | src/bounty/bounty.types.ts:17 | each of the four statuses prints to a literal that reads back as itself |
| `Amount.ParseInt` | src/bounty/bounty.util.ts:44 | `parseInt` gives NaN exactly when the text does not start with a digit |
| `Amount.DigitRun` | src/bounty/bounty.util.ts:32 | `parseInt` reads the maximal run of leading digits and stops at the first non-digit |
| `Amount.ParseIntDecimal` | src/bounty/bounty.util.ts:32 | `parseInt` reads back the decimal text of any n, whatever non-digit text follows |
| `Amount.DecimalValue` | src/bounty/bounty-code-lens.ts:40 | the decimal text a template literal prints for n has value n |
| `Amount.ValidateAmount` | src/bounty/bounty.util.ts:31-38 | an accepted amount text starts with a digit; a refused one gets 'Enter 1-50M satoshis' |
| `Amount.ValidateAmountRange` | src/bounty/bounty.util.ts:31-38 | the amount prompt accepts a text iff `parseInt` reads it as n with 1 <= n <= 50,000,000 |
| `Amount.ValidateAmountDecimal` | src/bounty/bounty.util.ts:31-38 | the decimal text of n is accepted iff 1 <= n <= 50,000,000 |
| `Gateway.OutFlag` | src/bounty/bounty.util.ts:77-88 | exactly the POST requests carry an `out` flag: false for the funding invoice, true for the payout |
| `Gateway.InvoiceMemo` | src/bounty/bounty.util.ts:86 | the invoice memo contains the test's label and ends with its file path (or 'unknown') |
| `Gateway.PayoutMemo` | src/bounty/bounty.util.ts:375 | the payout memo contains the test's label |
| `Gateway.GetWalletId` | src/bounty/bounty.util.ts:334-347 | a wallet id is returned iff the lookup was ok, and it is the response's id; failures give undefined |
| `BountyLifecycle.AddEffect` | src/bounty/bounty.util.ts:11-114 | a test that already has a bounty: nothing changes, no request is sent, nothing is saved; a dismissed amount, URL or key prompt aborts before any request; a non-ok invoice response leaves the store unchanged; success iff the test is new, the amount given, credentials resolved and the invoice ok; success adds exactly the test's key and keeps every other record |
| `BountyLifecycle.AddRequests` | src/bounty/bounty.util.ts:49-88 | the first request is a POST with `out: false` to `/api/v1/payments`, for the parsed amount, with the invoice memo; stored URL and key are reused unchanged and nothing saved iff both are set, otherwise the prompted ones are used and saved |
| `BountyLifecycle.AddCreatesRecord` | src/bounty/bounty.util.ts:96-112 | a created record has the parsed amount (1 to 50,000,000), the response's invoice and hash, the creation time, the test, status none, not paid, no claimant, the key the invoice was created with, and the wallet id of a GET of `/api/v1/wallet` if that succeeded |
| `BountyLifecycle.RemoveEffect` | src/bounty/bounty.util.ts:171-199 | removal happens iff a bounty exists and the answer is exactly 'Yes, Remove'; it deletes only that key, fires and persists; otherwise nothing changes; no request is ever sent |
| `BountyLifecycle.CheckPaidEffect` | src/bounty/bounty.util.ts:214-265 | no record or no payment hash, or missing URL or key: no request, no change; the status lookup of the record's own hash is sent exactly when the record, its hash, the URL and the key are present, and is the only request; `paid` becomes true iff the response says paid, on that record only; a paid record is never made unpaid, and no claim status changes |
| `BountyLifecycle.ClaimEffect` | src/bounty/bounty.util.ts:272-303 | a claim is accepted iff the record is paid, unclaimed and the invoice answer is not empty; it sets `claimedBy` to the invoice (starting with 'lnbc') and status pending, and persists without firing; otherwise nothing changes |
| `BountyLifecycle.PayoutRequestsOutgoingPayment` | src/bounty/bounty.util.ts:366-377 | the payout is a POST with `out: true` to `/api/v1/payments` of the stored URL |
| `BountyLifecycle.ExecutePayoutEffect` | src/bounty/bounty.util.ts:350-396 | missing URL or record key: no request, no change; the payout is sent, with the record's own `creatorApiKey`, exactly when the URL and that key are set; success iff the response is ok, and then the record is written back paid and approved; a failed payout leaves the store (and the pending claim) unchanged |
| `BountyLifecycle.ApproveEffect` | src/bounty/bounty.util.ts:318-321 | approval is the payout followed by the change event, which fires whatever the payout's outcome |
| `BountyLifecycle.RejectEffect` | src/bounty/bounty.util.ts:322-328 | rejection writes back exactly the captured record with status rejected (no longer claimable), changes no other key, fires and persists |
| `BountyLifecycle.AddIgnoresPromptsWhenConfigured` | src/bounty/bounty.util.ts:49-74 | with URL and key both stored, the answers of the URL and key prompts have no effect |
| `BountyLifecycle.AddStoresTypedAmount` | src/bounty/bounty.util.ts:27-112 | every amount n from 1 to 50,000,000 typed in decimal creates a bounty of exactly n sats, status none |
| `BountyLifecycle.RemoveTwice` | src/bounty/bounty.util.ts:179-199 | after a confirmed removal the bounty is absent and a second removal reports that there is none |
| `BountyLifecycle.ClaimThenReject` | src/bounty/bounty.util.ts:281-328 | a claim followed by a rejection leaves the record rejected with the claimant's invoice, and a further claim is refused unchanged |
| `BountyLifecycle.ClaimThenApprove` | src/bounty/bounty.util.ts:281-392 | a claim followed by a successful payout sends the claimant's invoice with the key captured at creation, leaves the record paid and approved, and a further claim is refused unchanged |
| `BountyLifecycle.StepKeepsRecord` | src/bounty/bounty.util.ts:196-391 | any one handler other than a confirmed removal of a bounty keeps it and its terms, keeps it paid, and moves its claim status by at most one step of the state machine: none to pending (claim) or pending to approved or rejected (decision) |
| `BountyLifecycle.PaidIsMonotone` | src/bounty/bounty.util.ts:254-388 | over every sequence of handlers without a confirmed removal of the bounty (a cancelled one is included), `paid` never goes from true back to false |
| `BountyLifecycle.ClaimNeverRegresses` | src/bounty/bounty.util.ts:281-390 | over every such sequence the claim's rank (none, pending, decided) never decreases, and once approved or rejected it stays so |
| `BountyLifecycle.ClaimFollowsMachine` | src/bounty/bounty.util.ts:281-390 | over every such sequence each command keeps the bounty and moves its claim by one step of the state machine: pending only from none, approved or rejected only from pending |
| `BountyLifecycle.TermsAreWriteOnce` | src/bounty/bounty.util.ts:101-112 | over every such sequence the amount, invoice, payment hash, creation time, test, creator key and wallet id stay as the add handler wrote them |
| `BountyLifecycle.StaleRejectRestoresRemovedRecord` | src/bounty/bounty.util.ts:322-324 | a rejection that runs after its bounty was removed and added again writes the old record over the new one, restoring the old amount and invoice |
| `BountyLifecycle.StepKeepsConsistent` | src/bounty/bounty.util.ts:281-390 | any one handler keeps every record's claim either open, or funded with the claimant's invoice |
| `BountyLifecycle.RunKeepsConsistent` | src/bounty/bounty.util.ts:281-390 | every sequence of handlers keeps that consistency |
| `BountyCommands.BountyStore.constructor` | src/extension.ts:18-23 | the store starts as the loaded snapshot, in sync with storage, after one change event per loaded entry |
| `BountyCommands.BountyStore.AddBounty` | src/bounty/bounty.util.ts:11-114 | does what `AddEffect` states, in place, keeping storage equal to the map and counting the change event |
| `BountyCommands.BountyStore.ResolveAndCreate` | src/bounty/bounty.util.ts:49-114 | the add handler from the credentials on, in place, as `AddEffect` describes that stage |
| `BountyCommands.BountyStore.CreateBounty` | src/bounty/bounty.util.ts:76-114 | the add handler from the invoice request on, in place, as `AddEffect` describes that stage |
| `BountyCommands.BountyStore.RemoveBounty` | src/bounty/bounty.util.ts:171-199 | does what `RemoveEffect` states, in place; the persisted snapshot equals the remaining map |
| `BountyCommands.BountyStore.CheckPaid` | src/bounty/bounty.util.ts:214-265 | does what `CheckPaidEffect` states, in place |
| `BountyCommands.BountyStore.ClaimBounty` | src/bounty/bounty.util.ts:272-303 | does what `ClaimEffect` states, in place; the pending record is persisted before the decision, no event fires, and it is returned for the decision |
| `BountyCommands.BountyStore.ExecutePayout` | src/bounty/bounty.util.ts:350-396 | does what `ExecutePayoutEffect` states, in place, without firing |
| `BountyCommands.BountyStore.ApproveClaim` | src/bounty/bounty.util.ts:318-321 | runs the payout, then fires exactly once whatever its outcome |
| `BountyCommands.BountyStore.RejectClaim` | src/bounty/bounty.util.ts:322-328 | does what `RejectEffect` states, in place, firing once |
| `BountyCommands.FundedBounty` | src/bounty/bounty.util.test.ts:133-473 | created with fresh credentials and funded, a bounty is claimable, with its amount, hash and creator key, after two change events |
| `BountyCommands.Lifecycle` | src/bounty/bounty.util.test.ts:133-846 | created with fresh credentials, funded, claimed and approved, a bounty ends paid, approved, with the claimant's invoice and its amount, after three change events |
| `BountyCodeLens.Classify` | src/bounty/bounty-code-lens.ts:39-57 | the lens kind is total and ordered: pending, then approved, then rejected, then funded (claimable), then awaiting payment when a payment hash is set, otherwise no lens |
| `BountyCodeLens.CommandId` | src/bounty/bounty-code-lens.ts:39-54 | only a claimable record gets 'bountyTestPlugin.claimBounty' and only one awaiting payment gets 'bountyTestPlugin.checkPaid'; the others get no command |
| `BountyCodeLens.TitleShowsAmount` | src/bounty/bounty-code-lens.ts:40-52 | every title shows the record's `amountSats`, which `parseInt` reads back from after the heading |
| `BountyCodeLens.LensFor` | src/bounty/bounty-code-lens.ts:19-66 | a record gets a lens iff it has a test item in this document with a range and its status gives a kind; the lens uses the item's range, passes the item, and carries that kind's title and command |
| `BountyCodeLens.Lenses` | src/bounty/bounty-code-lens.ts:17-67 | no more lenses than entries; each lens is the lens of some entry, and every entry's lens is produced |
| `BountyCodeLens.ProvideCodeLenses` | src/bounty/bounty-code-lens.ts:11-73 | the loop returns exactly the lenses of the entries in order, and `foundAny` is set iff some entry passed the three filters |
| `BountyCodeLens.AtMostOneLensPerRecord` | src/bounty/bounty-code-lens.ts:17-66 | over the entries of a store, each key once, the lenses never outnumber the bounties |

## Left out

- BountyLifecycle.AllAdmissible: the sequences of handlers admit a decision only on the live record of its claim. A decision that runs after its bounty was removed is not among them. In the code such a decision writes its stale record back (src/bounty/bounty.util.ts:323-324, 388-391). That resurrects a removed bounty or overwrites a re-added one, as `StaleRejectRestoresRemovedRecord` shows. `PaidIsMonotone`, `ClaimNeverRegresses` and `TermsAreWriteOnce` hold for the admitted sequences only. The admitted sequences also include some the host cannot produce, such as a second decision on one claim: the decision prompt is shown once (src/bounty/bounty.util.ts:312-329), so after a failed payout or a dismissed decision the claim stays pending for good, refused by the claim guard (:281) and shown by a lens without a command (src/bounty/bounty-code-lens.ts:41).
- User interface: the message texts (outcomes stand for them), the webview panel, its HTML and the QR code (src/bounty/bounty.util.ts:116-163), the 'View All Bounties' follow-up, `setContext`, `forceCodeLensRefresh` and the console log of the code-lens provider.
- HTTP, `fetch` and JSON: responses are parameters, and a body whose decoding throws is not modelled. `data.paid || false` is read from an optional boolean; other truthy JSON values are not modelled.
- Storage: `globalState` and `secrets` are not modelled. The stored URL and key are parameters, and the add handler returns the credentials it saves. The persisted bounty snapshot is a ghost copy of the map.
- Concurrency: the promise continuation and the race of two claims on one record. Approve and reject are sequential methods that run after the claim.
- `BountyCommands.BountyStore.ApproveClaim`: it works on the value of the captured record. In the code that record is the same object as the map entry, and `executePayout` mutates it before writing it back. The model does not capture that aliasing. Without interleaving, both write the same value.
- `BountyCommands.BountyStore.RejectClaim`: works on the value of the captured record, as for approve.
- `Amount.ParseInt`: reads decimal digits only. It does not model leading whitespace, a sign, a `0x` prefix, or the loss of precision of very long numbers.
- `createdAt` is a number given by the caller. Its `Date` formatting (`toLocaleString`) is not modelled. `amountSats` is an integer, not a JavaScript number.
- Activation (src/extension.ts) is not modelled beyond the store's constructor. This covers command registration, the global map and the event emitter; the emitter is a counter of firings.
- The code-lens provider takes the map's entries in iteration order as a sequence. The provider object, which keeps a reference to the shared map, is not modelled. `collectChildren` and `resolveCodeLens` (src/bounty/bounty-code-lens.ts:75-88) are unused or return their argument, and are left out.
- The `!test` guards are modelled as an absent test item. A `uri`'s `toString()` and `fsPath` are two given strings.

=== FILE: amount.dfy ===
/**
 * The bounty amount: `parseInt` on the prompt's text, the prompt's
 * `validateInput` (1 to 50,000,000 satoshis), and the decimal form in
 * which an amount is shown in titles and messages.
 */
module Amount {
  import opened Wrappers

  const MinSats: int := 1
  const MaxSats: int := 50_000_000

  /** The message `validateInput` returns for a refused amount. */
  const AmountMessage: string := "Enter 1-50M satoshis"

  predicate IsDigit(c: char)
  {
    '0' <= c <= '9'
  }

  predicate AllDigits(s: string)
  {
    forall i :: 0 <= i < |s| ==> IsDigit(s[i])
  }

  function DigitValue(c: char): (d: nat)
    requires IsDigit(c)
    ensures d < 10
  {
    c as int - '0' as int
  }

  function DigitChar(d: nat): (c: char)
    requires d < 10
    ensures IsDigit(c) && DigitValue(c) == d
  {
    ('0' as int + d) as char
  }

  /** The length of the run of decimal digits that starts `s`. */
  function DigitRun(s: string): (k: nat)
    ensures k <= |s|
    ensures AllDigits(s[..k])
    ensures k < |s| ==> !IsDigit(s[k])
  {
    if |s| == 0 || !IsDigit(s[0]) then 0
    else
      var k := 1 + DigitRun(s[1..]);
      assert forall i :: 1 <= i < k ==> s[i] == s[1..][..k - 1][i - 1];
      k
  }

  /** The value of a string of decimal digits, most significant digit first. */
  function DigitsValue(s: string): nat
    requires AllDigits(s)
  {
    if |s| == 0 then 0 else 10 * DigitsValue(s[..|s| - 1]) + DigitValue(s[|s| - 1])
  }

  /**
   * `parseInt(s)` on decimal text: the value of the leading digits, or
   * `None` (NaN) when `s` does not start with a digit.
   */
  function ParseInt(s: string): (r: Option<nat>)
    ensures r.None? <==> |s| == 0 || !IsDigit(s[0])
  {
    var k := DigitRun(s);
    if k == 0 then None else Some(DigitsValue(s[..k]))
  }

  /** The amount prompt's `validateInput`: `None` (null) accepts, `Some(message)` refuses. */
  function ValidateAmount(value: string): (r: Option<string>)
    ensures r.None? ==> |value| > 0 && IsDigit(value[0])
    ensures r.Some? ==> r.value == AmountMessage
  {
    var sats := ParseInt(value);
    if sats.None? || sats.value < MinSats || sats.value > MaxSats then Some(AmountMessage) else None
  }

  /** The decimal text of a natural number, as a template literal shows it. */
  function Decimal(n: nat): (s: string)
    ensures 1 <= |s| && AllDigits(s)
  {
    if n < 10 then [DigitChar(n)] else Decimal(n / 10) + [DigitChar(n % 10)]
  }

  /** Reading the digits of `Decimal(n)` gives back `n`. */
  lemma {:induction false} DecimalValue(n: nat)
    ensures DigitsValue(Decimal(n)) == n
  {
    if n >= 10 {
      var s := Decimal(n);
      assert s[..|s| - 1] == Decimal(n / 10);
      DecimalValue(n / 10);
    }
  }

  /** `parseInt` stops at the first character that is not a digit. */
  lemma DigitRunOfDigits(d: string, rest: string)
    requires AllDigits(d)
    requires |rest| == 0 || !IsDigit(rest[0])
    ensures DigitRun(d + rest) == |d|
  {
    var s := d + rest;
    var k := DigitRun(s);
    assert forall i :: 0 <= i < |d| ==> IsDigit(s[i]);
    assert forall i :: 0 <= i < k ==> IsDigit(s[i]) by {
      assert forall i :: 0 <= i < k ==> s[..k][i] == s[i];
    }
    assert |d| < |s| ==> !IsDigit(s[|d|]);
  }

  /** `parseInt` reads back the decimal text of `n`, whatever non-digit text follows it. */
  lemma ParseIntDecimal(n: nat, rest: string)
    requires |rest| == 0 || !IsDigit(rest[0])
    ensures ParseInt(Decimal(n) + rest) == Some(n)
  {
    var d := Decimal(n);
    DigitRunOfDigits(d, rest);
    assert (d + rest)[..|d|] == d;
    DecimalValue(n);
  }

  /** The amount prompt accepts the decimal text of `n` exactly when 1 <= n <= 50,000,000. */
  lemma ValidateAmountDecimal(n: nat, rest: string)
    requires |rest| == 0 || !IsDigit(rest[0])
    ensures ValidateAmount(Decimal(n) + rest).None? <==> MinSats <= n <= MaxSats
  {
    ParseIntDecimal(n, rest);
  }

  /** The prompt accepts exactly the text that `parseInt` reads as an amount from 1 to 50,000,000. */
  lemma ValidateAmountRange(value: string)
    ensures ValidateAmount(value).None? <==> ParseInt(value).Some? && MinSats <= ParseInt(value).value <= MaxSats
  {
  }
}

=== FILE: bounty_store.dfy ===
/**
 * The command handlers of src/bounty/bounty.util.ts over the shared
 * bounty map, run in place. Each method does what its handler does, step
 * by step, and its postcondition equates what it did with the matching
 * transition of BountyLifecycle, where the properties are proved.
 */
module BountyCommands {
  import opened Wrappers
  import opened BountyTypes
  import opened Amount
  import opened Gateway
  import opened BountyLifecycle

  /**
   * The extension's shared state: the `bounties` map every handler
   * mutates, the snapshot last written to `globalState` under
   * 'bountyTests', and the number of times the change event has fired.
   */
  class BountyStore {
    var bounties: map<string, Bounty>
    ghost var persisted: map<string, Bounty>
    var changeEvents: nat

    /** Storage is never behind memory once a handler has finished. */
    ghost predicate Valid()
      reads this
    {
      persisted == bounties
    }

    /** The store as loaded from the persisted snapshot at activation, which
        fires the change event once per loaded entry. */
    constructor (loaded: map<string, Bounty>)
      ensures Valid() && bounties == loaded && changeEvents == |loaded|
    {
      bounties := loaded;
      persisted := loaded;
      changeEvents := |loaded|;
    }

    /** Fire the change event. */
    method Fire()
      modifies this`changeEvents
      ensures changeEvents == old(changeEvents) + 1
    {
      changeEvents := changeEvents + 1;
    }

    /** Write the whole map to `globalState`. */
    method Persist()
      modifies this`persisted
      ensures persisted == bounties
    {
      persisted := bounties;
    }

    /** `addBountyCommand`'s handler. */
    method AddBounty(
      test: Option<TestItem>, amountInput: Option<string>,
      storedUrl: Option<string>, storedKey: Option<string>,
      urlInput: Option<string>, keyInput: Option<string>,
      invoiceResponse: Response<InvoiceData>, walletResponse: Response<WalletData>, now: int)
      returns (outcome: Outcome, requests: seq<Request>, savedConfig: Option<Config>)
      requires Valid() && AmountPromptResult(amountInput)
      modifies this
      ensures Valid()
      ensures var e := AddEffect(old(bounties), test, amountInput, storedUrl, storedKey, urlInput, keyInput,
                                 invoiceResponse, walletResponse, now);
              outcome == e.outcome && bounties == e.store && requests == e.requests && savedConfig == e.savedConfig
              && changeEvents == old(changeEvents) + (if e.fires then 1 else 0)
    {
      requests, savedConfig := [], None;
      if test.None? {
        outcome := NoTestSelected;
        return;
      }
      var item := test.value;
      if item.id in bounties {
        outcome := AlreadyHasBounty;
        return;
      }
      if !Truthy(amountInput) {
        outcome := Cancelled;
        return;
      }
      ValidateAmountRange(amountInput.value);
      var amountSats := ParseInt(amountInput.value).value;
      outcome, requests, savedConfig := ResolveAndCreate(item, amountSats, storedUrl, storedKey, urlInput, keyInput,
                                                         invoiceResponse, walletResponse, now);
    }

    /** The add handler from the LNbits configuration on, with the amount known. */
    method ResolveAndCreate(
      item: TestItem, amountSats: nat,
      storedUrl: Option<string>, storedKey: Option<string>,
      urlInput: Option<string>, keyInput: Option<string>,
      invoiceResponse: Response<InvoiceData>, walletResponse: Response<WalletData>, now: int)
      returns (outcome: Outcome, requests: seq<Request>, savedConfig: Option<Config>)
      requires Valid()
      modifies this
      ensures Valid()
      ensures var e := ConfigStep(old(bounties), item, amountSats, storedUrl, storedKey, urlInput, keyInput,
                                  invoiceResponse, walletResponse, now);
              outcome == e.outcome && bounties == e.store && requests == e.requests && savedConfig == e.savedConfig
              && changeEvents == old(changeEvents) + (if e.fires then 1 else 0)
    {
      requests, savedConfig := [], None;
      var lnbitsUrl, lnbitsInvoiceKey := storedUrl, storedKey;
      if !Truthy(lnbitsUrl) || !Truthy(lnbitsInvoiceKey) {
        if !Truthy(urlInput) {
          outcome := Cancelled;
          return;
        }
        if !Truthy(keyInput) {
          outcome := Cancelled;
          return;
        }
        savedConfig := Some(Config(urlInput.value, keyInput.value));
        lnbitsUrl, lnbitsInvoiceKey := urlInput, keyInput;
      }
      outcome, requests := CreateBounty(item, amountSats, Config(lnbitsUrl.value, lnbitsInvoiceKey.value), savedConfig,
                                        invoiceResponse, walletResponse, now);
    }

    /** The add handler from the invoice request on, with the amount and credentials resolved. */
    method CreateBounty(
      item: TestItem, amountSats: nat, config: Config, saved: Option<Config>,
      invoiceResponse: Response<InvoiceData>, walletResponse: Response<WalletData>, now: int)
      returns (outcome: Outcome, requests: seq<Request>)
      requires Valid()
      modifies this
      ensures Valid()
      ensures var e := CreateStep(old(bounties), item, amountSats, config, saved, invoiceResponse, walletResponse, now);
              outcome == e.outcome && bounties == e.store && requests == e.requests
              && changeEvents == old(changeEvents) + (if e.fires then 1 else 0)
    {
      requests := [CreateInvoice(config.url, config.key, amountSats, InvoiceMemo(item))];
      match invoiceResponse {
        case NotOk(status, text) =>
          outcome := InvoiceFailed(status, text);
        case NetworkError(message) =>
          outcome := NetworkFailure(message);
        case Ok(data) =>
          requests := requests + [WalletInfo(config.url, config.key)];
          var bountyInfo := Bounty(amountSats, data.paymentRequest, Some(data.paymentHash), now, Some(item), item.id,
                                   None, None, Unclaimed, Some(config.key), GetWalletId(walletResponse));
          bounties := bounties[item.id := bountyInfo];
          Fire();
          Persist();
          outcome := Created;
      }
    }

    /** `removeBountyCommand`'s handler. */
    method RemoveBounty(test: Option<TestItem>, confirmation: Option<string>) returns (outcome: Outcome)
      requires Valid()
      modifies this
      ensures Valid()
      ensures var e := RemoveEffect(old(bounties), test, confirmation);
              outcome == e.outcome && bounties == e.store
              && changeEvents == old(changeEvents) + (if e.fires then 1 else 0)
    {
      if test.None? {
        outcome := NoTestSelected;
        return;
      }
      if test.value.id !in bounties {
        outcome := NoBounty;
        return;
      }
      if confirmation != Some(RemoveChoice) {
        outcome := Cancelled;
        return;
      }
      bounties := bounties - {test.value.id};
      Fire();
      Persist();
      outcome := Removed;
    }

    /** `checkPaidCommand`'s handler. */
    method CheckPaid(
      test: Option<TestItem>, storedUrl: Option<string>, storedKey: Option<string>,
      statusResponse: Response<StatusData>)
      returns (outcome: Outcome, requests: seq<Request>)
      requires Valid()
      modifies this
      ensures Valid()
      ensures var e := CheckPaidEffect(old(bounties), test, storedUrl, storedKey, statusResponse);
              outcome == e.outcome && bounties == e.store && requests == e.requests
              && changeEvents == old(changeEvents) + (if e.fires then 1 else 0)
    {
      requests := [];
      if !Selected(test) {
        outcome := NoTestSelected;
        return;
      }
      var id := test.value.id;
      if id !in bounties || !Truthy(bounties[id].paymentHash) {
        outcome := NothingToCheck;
        return;
      }
      var bounty := bounties[id];
      if !Truthy(storedUrl) || !Truthy(storedKey) {
        outcome := ConfigMissing;
        return;
      }
      requests := [PaymentStatus(storedUrl.value, storedKey.value, bounty.paymentHash.value)];
      match statusResponse {
        case NotOk(status, _) =>
          outcome := StatusCheckFailed(status);
        case NetworkError(message) =>
          outcome := NetworkFailure(message);
        case Ok(data) =>
          var isPaid := data.paid == Some(true);
          if isPaid {
            bounty := bounty.(paid := Some(true));
            bounties := bounties[id := bounty];
            Fire();
            Persist();
            outcome := Funded;
          } else {
            outcome := NotYetPaid;
          }
      }
    }

    /**
     * `claimBountyCommand`'s handler, up to the creator's decision. It
     * returns the record it left pending, which the decision methods
     * below take as the record the continuation captured.
     */
    method ClaimBounty(test: Option<TestItem>, claimInvoice: Option<string>)
      returns (outcome: Outcome, captured: Option<Bounty>)
      requires Valid() && ClaimPromptResult(claimInvoice)
      modifies this
      ensures Valid() && changeEvents == old(changeEvents)
      ensures var e := ClaimEffect(old(bounties), test, claimInvoice);
              outcome == e.outcome && bounties == e.store
      ensures captured.Some? <==> outcome == ClaimPending
      ensures captured.Some? ==> test.value.id in bounties && captured.value == bounties[test.value.id]
    {
      captured := None;
      if !Selected(test) {
        outcome := NoTestSelected;
        return;
      }
      var id := test.value.id;
      if id !in bounties || !IsPaid(bounties[id]) || bounties[id].claimStatus != Unclaimed {
        outcome := NotClaimable;
        return;
      }
      if !Truthy(claimInvoice) {
        outcome := Cancelled;
        return;
      }
      var bounty := bounties[id].(claimedBy := claimInvoice, claimStatus := Pending);
      bounties := bounties[id := bounty];
      Persist();
      outcome := ClaimPending;
      captured := Some(bounty);
    }

    /** `executePayout`. */
    method ExecutePayout(
      test: TestItem, captured: Bounty, claimInvoice: string,
      storedUrl: Option<string>, payoutResponse: Response<PayoutData>)
      returns (outcome: Outcome, requests: seq<Request>)
      requires Valid()
      modifies this
      ensures Valid() && changeEvents == old(changeEvents)
      ensures var e := ExecutePayoutEffect(old(bounties), test, captured, claimInvoice, storedUrl, payoutResponse);
              outcome == e.outcome && bounties == e.store && requests == e.requests
    {
      requests := [];
      var lnbitsUrl := storedUrl;
      var apiKey := captured.creatorApiKey;
      if !Truthy(lnbitsUrl) || !Truthy(apiKey) {
        outcome := ConfigMissing;
        return;
      }
      requests := [SendPayout(lnbitsUrl.value, apiKey.value, claimInvoice, PayoutMemo(test))];
      match payoutResponse {
        case NotOk(_, text) =>
          outcome := PayoutFailed(text);
        case NetworkError(message) =>
          outcome := NetworkFailure(message);
        case Ok(data) =>
          var bounty := captured.(paid := Some(true), claimStatus := Approved);
          bounties := bounties[test.id := bounty];
          Persist();
          outcome := PayoutSent(data.checkingId);
      }
    }

    /** The creator picks "Approve Payout": the payout, then the change event, whatever the payout's outcome. */
    method ApproveClaim(
      test: TestItem, captured: Bounty, claimInvoice: string,
      storedUrl: Option<string>, payoutResponse: Response<PayoutData>)
      returns (outcome: Outcome, requests: seq<Request>)
      requires Valid()
      modifies this
      ensures Valid() && changeEvents == old(changeEvents) + 1
      ensures var e := ApproveEffect(old(bounties), test, captured, claimInvoice, storedUrl, payoutResponse);
              outcome == e.outcome && bounties == e.store && requests == e.requests
    {
      outcome, requests := ExecutePayout(test, captured, claimInvoice, storedUrl, payoutResponse);
      Fire();
    }

    /** The creator picks "Reject". */
    method RejectClaim(test: TestItem, captured: Bounty) returns (outcome: Outcome)
      requires Valid()
      modifies this
      ensures Valid() && changeEvents == old(changeEvents) + 1
      ensures var e := RejectEffect(old(bounties), test, captured);
              outcome == e.outcome && bounties == e.store
    {
      var bounty := captured.(claimStatus := Rejected);
      bounties := bounties[test.id := bounty];
      Persist();
      outcome := ClaimRejected;
      Fire();
    }
  }

  /** The funding invoice LNbits returns in the scenario. */
  const ScenarioInvoice: string := "lnbc25000fakeinvoice"

  /** The record the scenario's add step creates. */
  function ScenarioRecord(test: TestItem, sats: nat, config: Config, hash: string, now: int): Bounty
  {
    Bounty(sats, ScenarioInvoice, Some(hash), now, Some(test), test.id, None, None, Unclaimed, Some(config.key), None)
  }

  /** The scenario's add step: a new bounty of `sats`, created with prompted credentials. */
  lemma ScenarioAdd(test: TestItem, sats: nat, config: Config, hash: string, now: int)
    requires config.url != "" && config.key != "" && MinSats <= sats <= MaxSats
    ensures AmountPromptResult(Some(Decimal(sats)))
    ensures var e := AddEffect(map[], Some(test), Some(Decimal(sats)), None, None, Some(config.url), Some(config.key),
                               Ok(InvoiceData(ScenarioInvoice, hash)), NotOk(404, ""), now);
            e.outcome == Created && e.store == map[test.id := ScenarioRecord(test, sats, config, hash, now)] && e.fires
  {
    ValidateAmountDecimal(sats, []);
    ParseIntDecimal(sats, []);
    assert Decimal(sats) + [] == Decimal(sats);
  }

  /**
   * The first half of a bounty's life: created with fresh credentials
   * and funded. It is then claimable, after two change events.
   */
  method FundedBounty(test: TestItem, sats: nat, config: Config, hash: string, now: int)
    returns (store: BountyStore)
    requires test.id != "" && config.url != "" && config.key != "" && hash != ""
    requires MinSats <= sats <= MaxSats
    ensures fresh(store) && store.Valid() && test.id in store.bounties
    ensures var b := store.bounties[test.id];
            b.amountSats == sats && b.paymentHash == Some(hash) && b.creatorApiKey == Some(config.key)
            && Claimable(b)
    ensures store.changeEvents == 2
  {
    store := new BountyStore(map[]);
    ScenarioAdd(test, sats, config, hash, now);
    var outcome, requests, saved := store.AddBounty(
      Some(test), Some(Decimal(sats)), None, None, Some(config.url), Some(config.key),
      Ok(InvoiceData(ScenarioInvoice, hash)), NotOk(404, ""), now);
    assert store.bounties[test.id] == ScenarioRecord(test, sats, config, hash, now);
    outcome, requests := store.CheckPaid(Some(test), Some(config.url), Some(config.key), Ok(StatusData(Some(true))));
  }

  /**
   * The scenario of a bounty's whole life: created with fresh
   * credentials, funded, claimed, and approved.
   */
  method Lifecycle(test: TestItem, sats: nat, config: Config, hash: string, claimInvoice: string, now: int)
    returns (store: BountyStore)
    requires test.id != "" && config.url != "" && config.key != "" && hash != ""
    requires MinSats <= sats <= MaxSats
    requires StartsWith(claimInvoice, InvoicePrefix)
    ensures store.Valid() && test.id in store.bounties
    ensures var b := store.bounties[test.id];
            b.amountSats == sats && b.paymentHash == Some(hash)
            && IsPaid(b) && b.claimStatus == Approved && b.claimedBy == Some(claimInvoice)
    ensures store.changeEvents == 3
  {
    store := FundedBounty(test, sats, config, hash, now);
    var outcome, captured := store.ClaimBounty(Some(test), Some(claimInvoice));
    assert outcome == ClaimPending;
    var requests;
    outcome, requests := store.ApproveClaim(test, captured.value, claimInvoice, Some(config.url),
                                            Ok(PayoutData("checking")));
  }
}

=== FILE: bounty_types.dfy ===
/**
 * The bounty record and its claim status, as declared in
 * src/bounty/bounty.types.ts, with the VS Code test item it may point to.
 */
module BountyTypes {
  import opened Wrappers

  /** The four values of the `ClaimStatus` string union; `Unclaimed` is 'none'. */
  datatype ClaimStatus = Unclaimed | Pending | Approved | Rejected

  /** The literal stored for each status in the persisted snapshot. */
  function StatusName(c: ClaimStatus): string
  {
    match c
    case Unclaimed => "none"
    case Pending => "pending"
    case Approved => "approved"
    case Rejected => "rejected"
  }

  /** Reads a persisted status literal back; anything else is not a `ClaimStatus`. */
  function ParseStatus(s: string): (r: Option<ClaimStatus>)
    ensures r.Some? <==> s in {"none", "pending", "approved", "rejected"}
    ensures r.Some? ==> StatusName(r.value) == s
  {
    if s == "none" then Some(Unclaimed)
    else if s == "pending" then Some(Pending)
    else if s == "approved" then Some(Approved)
    else if s == "rejected" then Some(Rejected)
    else None
  }

  /** The status literals are exactly four and each reads back as itself. */
  lemma StatusNameRoundTrip(c: ClaimStatus)
    ensures ParseStatus(StatusName(c)) == Some(c)
  {
  }

  /** A document location: `uri.toString()` is `text`, `uri.fsPath` is `fsPath`. */
  datatype Uri = Uri(text: string, fsPath: string)

  /** An editor range; only its presence and identity matter here. */
  datatype Range = Range(startLine: nat, startCharacter: nat, endLine: nat, endCharacter: nat)

  /** The parts of a `vscode.TestItem` that the bounty code reads (`labelText` is its `label`). */
  datatype TestItem = TestItem(id: string, labelText: string, uri: Option<Uri>, range: Option<Range>)

  /**
   * `BountyInfo`. Optional properties are `Option`s; `createdAt` is the
   * creation time as a number (its `Date` formatting is not modelled).
   */
  datatype Bounty = Bounty(
    amountSats: int,
    invoice: string,
    paymentHash: Option<string>,
    createdAt: int,
    testItem: Option<TestItem>,
    testId: string,
    paid: Option<bool>,
    claimedBy: Option<string>,
    claimStatus: ClaimStatus,
    creatorApiKey: Option<string>,
    creatorWalletId: Option<string>)

  /** JavaScript truthiness of an optional string: present and not empty. */
  predicate Truthy(s: Option<string>)
  {
    s.Some? && s.value != ""
  }

  /** `bounty.paid` is truthy; an absent `paid` counts as not paid. */
  predicate IsPaid(b: Bounty)
  {
    b.paid == Some(true)
  }
}

=== FILE: code_lens.dfy ===
/**
 * `BountyCodeLensProvider.provideCodeLenses` of
 * src/bounty/bounty-code-lens.ts: one lens per bounty whose test item is
 * shown in the document, titled and wired by the record's status.
 */
module BountyCodeLens {
  import opened Wrappers
  import opened BountyTypes
  import opened Amount

  const ClaimBountyCommand: string := "bountyTestPlugin.claimBounty"
  const CheckPaidCommand: string := "bountyTestPlugin.checkPaid"

  /** A lens's command: `arguments` is always the single test item. */
  datatype Command = Command(title: string, command: string, argument: TestItem, tooltip: string)

  datatype CodeLens = CodeLens(range: Range, command: Command)

  /** The branches of the status if-chain that produce a lens. */
  datatype LensKind = PendingLens | ApprovedLens | RejectedLens | ClaimableLens | AwaitingPaymentLens

  /**
   * The status if-chain: the claim status decides first (pending, then
   * approved, then rejected), then funding, then the presence of a
   * payment hash; a record with none of these gets no lens.
   */
  function Classify(b: Bounty): (k: Option<LensKind>)
    ensures k == Some(PendingLens) <==> b.claimStatus == Pending
    ensures k == Some(ApprovedLens) <==> b.claimStatus == Approved
    ensures k == Some(RejectedLens) <==> b.claimStatus == Rejected
    ensures k == Some(ClaimableLens) <==> b.claimStatus == Unclaimed && IsPaid(b)
    ensures k == Some(AwaitingPaymentLens) <==> b.claimStatus == Unclaimed && !IsPaid(b) && Truthy(b.paymentHash)
    ensures k == None <==> b.claimStatus == Unclaimed && !IsPaid(b) && !Truthy(b.paymentHash)
  {
    if b.claimStatus == Pending then Some(PendingLens)
    else if b.claimStatus == Approved then Some(ApprovedLens)
    else if b.claimStatus == Rejected then Some(RejectedLens)
    else
      assert b.claimStatus == Unclaimed;
      if IsPaid(b) then Some(ClaimableLens)
      else if Truthy(b.paymentHash) then Some(AwaitingPaymentLens)
      else None
  }

  /** The text of a title before the amount. */
  function Heading(k: LensKind): string
  {
    match k
    case PendingLens => "\U{1F4B0} Claim Pending"
    case ApprovedLens => "\U{1F4B0} Claim Approved – Payout Sent"
    case RejectedLens => "\U{1F4B0} Claim Rejected"
    case ClaimableLens => "\U{1F4B0} Funded – Claimable"
    case AwaitingPaymentLens => "\U{1F4B0} Awaiting Payment"
  }

  /** A number as a template literal writes it. */
  function AmountText(n: int): string
  {
    if n < 0 then "-" + Decimal(-n) else Decimal(n)
  }

  function Title(k: LensKind, amountSats: int): string
  {
    Heading(k) + " (" + AmountText(amountSats) + " sats)"
  }

  /** Only a claimable record and one awaiting payment get a command to run. */
  function CommandId(k: LensKind): (id: string)
    ensures id == ClaimBountyCommand <==> k == ClaimableLens
    ensures id == CheckPaidCommand <==> k == AwaitingPaymentLens
    ensures id == "" <==> k in {PendingLens, ApprovedLens, RejectedLens}
  {
    match k
    case ClaimableLens => ClaimBountyCommand
    case AwaitingPaymentLens => CheckPaidCommand
    case _ => ""
  }

  function Tooltip(k: LensKind): string
  {
    match k
    case PendingLens => "Waiting for creator approval"
    case ClaimableLens => "Click to claim bounty payout"
    case AwaitingPaymentLens => "Check if bounty has been funded"
    case _ => ""
  }

  /** The amount a title shows is the record's: `parseInt` reads it back after the heading. */
  lemma TitleShowsAmount(k: LensKind, amountSats: nat)
    ensures |Heading(k)| + 2 <= |Title(k, amountSats)|
    ensures ParseInt(Title(k, amountSats)[|Heading(k)| + 2..]) == Some(amountSats)
  {
    var t := Title(k, amountSats);
    assert t[|Heading(k)| + 2..] == Decimal(amountSats) + " sats)";
    ParseIntDecimal(amountSats, " sats)");
  }

  /** The three filters before the if-chain: a stored test item, in this document, with a range. */
  predicate Displayed(b: Bounty, document: Uri)
  {
    && b.testItem.Some?
    && b.testItem.value.uri.Some? && b.testItem.value.uri.value.text == document.text
    && b.testItem.value.range.Some?
  }

  /** The command of a lens of kind `k` for a record of `amountSats` on `item`. */
  function LensCommand(k: LensKind, amountSats: int, item: TestItem): Command
  {
    Command(Title(k, amountSats), CommandId(k), item, Tooltip(k))
  }

  /** The lens one record contributes to `document`, if any. */
  function LensFor(b: Bounty, document: Uri): (r: Option<CodeLens>)
    ensures r.Some? <==> Displayed(b, document) && Classify(b).Some?
    ensures r.Some? ==>
              r.value.range == b.testItem.value.range.value
              && r.value.command.argument == b.testItem.value
              && r.value.command.title == Title(Classify(b).value, b.amountSats)
              && r.value.command.command == CommandId(Classify(b).value)
  {
    if !Displayed(b, document) then None
    else
      var item := b.testItem.value;
      match Classify(b)
      case None => None
      case Some(k) => Some(CodeLens(item.range.value, LensCommand(k, b.amountSats, item)))
  }

  /** The lenses of `entries`, in order. */
  function Lenses(entries: seq<(string, Bounty)>, document: Uri): (r: seq<CodeLens>)
    ensures |r| <= |entries|
    ensures forall j :: 0 <= j < |r| ==>
              exists i :: 0 <= i < |entries| && LensFor(entries[i].1, document) == Some(r[j])
    ensures forall i :: 0 <= i < |entries| && LensFor(entries[i].1, document).Some? ==>
              LensFor(entries[i].1, document).value in r
    decreases |entries|
  {
    if |entries| == 0 then []
    else
      var init := entries[..|entries| - 1];
      var prefix := Lenses(init, document);
      assert forall i :: 0 <= i < |init| ==> init[i] == entries[i];
      match LensFor(entries[|entries| - 1].1, document)
      case None => prefix
      case Some(lens) => prefix + [lens]
  }

  /** The lenses of one more entry: those of the prefix, then that entry's own, if any. */
  lemma LensesStep(entries: seq<(string, Bounty)>, n: nat, document: Uri)
    requires n < |entries|
    ensures Lenses(entries[..n + 1], document)
         == Lenses(entries[..n], document)
            + (if LensFor(entries[n].1, document).Some? then [LensFor(entries[n].1, document).value] else [])
  {
    assert entries[..n + 1][..n] == entries[..n];
  }

  /**
   * `provideCodeLenses`: `entries` are the store's `[testId, bounty]`
   * pairs in the Map's iteration order. `foundAny` records whether some
   * record passed the three filters, even one the if-chain then skipped.
   */
  method ProvideCodeLenses(entries: seq<(string, Bounty)>, document: Uri)
    returns (lenses: seq<CodeLens>, foundAny: bool)
    ensures lenses == Lenses(entries, document)
    ensures foundAny <==> exists i :: 0 <= i < |entries| && Displayed(entries[i].1, document)
  {
    lenses, foundAny := [], false;
    var n := 0;
    while n < |entries|
      invariant 0 <= n <= |entries|
      invariant lenses == Lenses(entries[..n], document)
      invariant foundAny <==> exists i :: 0 <= i < n && Displayed(entries[i].1, document)
    {
      var bounty := entries[n].1;
      LensesStep(entries, n, document);
      n := n + 1;
      if bounty.testItem.None? {
        continue;
      }
      var item := bounty.testItem.value;
      if item.uri.None? || item.uri.value.text != document.text {
        continue;
      }
      if item.range.None? {
        continue;
      }
      foundAny := true;
      var kind := Classify(bounty);
      if kind.None? {
        continue;
      }
      lenses := lenses + [CodeLens(item.range.value, LensCommand(kind.value, bounty.amountSats, item))];
    }
    assert entries[..n] == entries;
  }

  /** `entries` lists the pairs of `store`, each key once, as `Map.entries()` does. */
  predicate Enumerates(entries: seq<(string, Bounty)>, store: map<string, Bounty>)
  {
    && (forall i :: 0 <= i < |entries| ==> entries[i].0 in store && store[entries[i].0] == entries[i].1)
    && (forall i, j :: 0 <= i < j < |entries| ==> entries[i].0 != entries[j].0)
  }

  function Keys(entries: seq<(string, Bounty)>): set<string>
  {
    set i | 0 <= i < |entries| :: entries[i].0
  }

  /** Distinct keys: as many keys as entries. */
  lemma {:induction false} DistinctKeysCount(entries: seq<(string, Bounty)>)
    requires forall i, j :: 0 <= i < j < |entries| ==> entries[i].0 != entries[j].0
    ensures |Keys(entries)| == |entries|
    decreases |entries|
  {
    if |entries| > 0 {
      var init := entries[..|entries| - 1];
      var last := entries[|entries| - 1].0;
      DistinctKeysCount(init);
      assert Keys(entries) == Keys(init) + {last} by {
        forall k | k in Keys(entries) ensures k in Keys(init) + {last} {
          var i :| 0 <= i < |entries| && entries[i].0 == k;
          if i < |entries| - 1 { assert init[i].0 == k; }
        }
        forall k | k in Keys(init) ensures k in Keys(entries) {
          var i :| 0 <= i < |init| && init[i].0 == k;
          assert entries[i].0 == k;
        }
      }
      assert last !in Keys(init) by {
        forall i | 0 <= i < |init| ensures init[i].0 != last {
          assert init[i] == entries[i];
        }
      }
    }
  }

  /** At most one lens per record: the lenses never outnumber the bounties in the store. */
  lemma AtMostOneLensPerRecord(entries: seq<(string, Bounty)>, document: Uri, store: map<string, Bounty>)
    requires Enumerates(entries, store)
    ensures |Lenses(entries, document)| <= |store|
  {
    DistinctKeysCount(entries);
    assert Keys(entries) <= store.Keys;
    assert |Keys(entries)| <= |store.Keys| by {
      SubsetCardinality(Keys(entries), store.Keys);
    }
  }

  lemma SubsetCardinality(a: set<string>, b: set<string>)
    requires a <= b
    ensures |a| <= |b|
  {
    assert b == a + (b - a);
  }
}

=== FILE: gateway.dfy ===
/**
 * The LNbits requests the bounty commands issue, as values. The network
 * itself is not modelled: each command returns the requests it made, in
 * order, and receives the responses as parameters.
 */
module Gateway {
  import opened Wrappers
  import opened BountyTypes

  /** One HTTP request, authenticated by `apiKey` in the `X-Api-Key` header. */
  datatype Request =
    | CreateInvoice(baseUrl: string, apiKey: string, amount: int, memo: string)
    | PaymentStatus(baseUrl: string, apiKey: string, paymentHash: string)
    | WalletInfo(baseUrl: string, apiKey: string)
    | SendPayout(baseUrl: string, apiKey: string, bolt11: string, memo: string)

  /** The outcome of a `fetch`: an ok response with its decoded body, a non-ok one, or a thrown error. */
  datatype Response<T> = Ok(data: T) | NotOk(status: int, text: string) | NetworkError(message: string)

  /** `{payment_request, payment_hash}` of a created invoice. */
  datatype InvoiceData = InvoiceData(paymentRequest: string, paymentHash: string)

  /** `{paid}` of a payment status lookup; `paid` may be missing. */
  datatype StatusData = StatusData(paid: Option<bool>)

  /** `{id}` of a wallet lookup. */
  datatype WalletData = WalletData(id: string)

  /** `{checking_id}` of a sent payout. */
  datatype PayoutData = PayoutData(checkingId: string)

  /** The URL a request is sent to. */
  function Endpoint(r: Request): string
  {
    match r
    case CreateInvoice(url, _, _, _) => url + "/api/v1/payments"
    case PaymentStatus(url, _, hash) => url + "/api/v1/payments/" + hash
    case WalletInfo(url, _) => url + "/api/v1/wallet"
    case SendPayout(url, _, _, _) => url + "/api/v1/payments"
  }

  function Verb(r: Request): string
  {
    if r.CreateInvoice? || r.SendPayout? then "POST" else "GET"
  }

  /**
   * The `out` flag of a POST body: the invoice is incoming (`false`), the
   * payout outgoing (`true`); the two POSTs share one endpoint and differ
   * only by this flag. GET requests have no body.
   */
  function OutFlag(r: Request): (out: Option<bool>)
    ensures out.Some? <==> Verb(r) == "POST"
    ensures r.CreateInvoice? ==> out == Some(false)
    ensures r.SendPayout? ==> out == Some(true)
  {
    match r
    case CreateInvoice(_, _, _, _) => Some(false)
    case SendPayout(_, _, _, _) => Some(true)
    case _ => None
  }

  /** `test.uri?.fsPath || 'unknown'`. */
  function TestPath(test: TestItem): string
  {
    if test.uri.Some? && test.uri.value.fsPath != "" then test.uri.value.fsPath else "unknown"
  }

  const InvoiceMemoHead: string := "Bounty for test \""
  const PayoutMemoHead: string := "Payout for test \""

  /** The memo of the funding invoice: it names the test's label, then its file. */
  function InvoiceMemo(test: TestItem): (memo: string)
    ensures var n := |InvoiceMemoHead| + |test.labelText|;
      n <= |memo| && memo[|InvoiceMemoHead|..n] == test.labelText
    ensures |TestPath(test)| <= |memo| && memo[|memo| - |TestPath(test)|..] == TestPath(test)
  {
    InvoiceMemoHead + test.labelText + "\" in " + TestPath(test)
  }

  /** The memo of a payout: it names the test's label. */
  function PayoutMemo(test: TestItem): (memo: string)
    ensures var n := |PayoutMemoHead| + |test.labelText|;
      n <= |memo| && memo[|PayoutMemoHead|..n] == test.labelText
  {
    PayoutMemoHead + test.labelText + "\" bounty"
  }

  /**
   * `getWalletId`: the wallet id of an ok response, and `undefined` when the
   * lookup failed or threw (the failure is swallowed).
   */
  function GetWalletId(response: Response<WalletData>): (id: Option<string>)
    ensures id.Some? <==> response.Ok?
    ensures id.Some? ==> id.value == response.data.id
  {
    match response
    case Ok(data) => Some(data.id)
    case NotOk(_, _) => None
    case NetworkError(_) => None
  }
}

=== FILE: lifecycle.dfy ===
/**
 * The bounty lifecycle of src/bounty/bounty.util.ts as pure transitions.
 * Each command handler is a function from the store it finds (the shared
 * `Map<string, BountyInfo>`), the answers of its prompts, the stored
 * LNbits configuration and the gateway's responses, to an `Effect`: the
 * message it ends with, the store it leaves, the requests it sent, and
 * whether it fired the change event and wrote the store to `globalState`.
 * The class in bounty_store.dfy runs the same handlers in place.
 */
module BountyLifecycle {
  import opened Wrappers
  import opened BountyTypes
  import opened Amount
  import opened Gateway

  /** The confirmation button of the remove dialog. */
  const RemoveChoice: string := "Yes, Remove"

  /** The prefix the claim prompt demands of a payout invoice. */
  const InvoicePrefix: string := "lnbc"

  /** The LNbits instance URL (in `globalState`) and invoice key (in `secrets`). */
  datatype Config = Config(url: string, key: string)

  /** How a command ends: the message it shows, or the state it reached. */
  datatype Outcome =
    | NoTestSelected
    | AlreadyHasBounty
    | NoBounty
    | NothingToCheck
    | NotClaimable
    | Cancelled
    | ConfigMissing
    | InvoiceFailed(status: int, text: string)
    | StatusCheckFailed(status: int)
    | PayoutFailed(text: string)
    | NetworkFailure(message: string)
    | Created
    | Removed
    | Funded
    | NotYetPaid
    | ClaimPending
    | PayoutSent(checkingId: string)
    | ClaimRejected

  /**
   * What one handler did: `store` is the map afterwards, `requests` the
   * LNbits requests in the order sent, `fires` whether the change event
   * fired, `persists` whether the store was written to `globalState`, and
   * `savedConfig` the LNbits configuration it stored, if any.
   */
  datatype Effect = Effect(
    outcome: Outcome,
    store: map<string, Bounty>,
    requests: seq<Request>,
    fires: bool,
    persists: bool,
    savedConfig: Option<Config>)

  /** A handler that stops early: nothing changes, nothing is sent. */
  function Stop(m: map<string, Bounty>, outcome: Outcome): Effect
  {
    Effect(outcome, m, [], false, false, None)
  }

  predicate StartsWith(s: string, prefix: string)
  {
    |prefix| <= |s| && s[..|prefix|] == prefix
  }

  /** What the amount prompt can return: nothing (dismissed) or text its `validateInput` accepts. */
  predicate AmountPromptResult(amountInput: Option<string>)
  {
    amountInput.Some? ==> ValidateAmount(amountInput.value).None?
  }

  /** What the claim prompt can return: nothing (dismissed) or text starting with "lnbc". */
  predicate ClaimPromptResult(claimInvoice: Option<string>)
  {
    claimInvoice.Some? ==> StartsWith(claimInvoice.value, InvoicePrefix)
  }

  /** The `!test || !test.id` guard of check-funding and claim. */
  predicate Selected(test: Option<TestItem>)
  {
    test.Some? && test.value.id != ""
  }

  /** A record as the claim handler leaves it: funded, pending, with the claimant's invoice. */
  predicate FromClaim(b: Bounty)
  {
    IsPaid(b) && b.claimStatus == Pending && Truthy(b.claimedBy)
  }

  /** A record the claim handler accepts. */
  predicate Claimable(b: Bounty)
  {
    IsPaid(b) && b.claimStatus == Unclaimed
  }

  // ---------------------------------------------------------------------
  // addBountyCommand
  // ---------------------------------------------------------------------

  /**
   * Add a bounty to `test`. The stored URL and key are used when both are
   * set; otherwise the URL and key prompts are answered by `urlInput` and
   * `keyInput`, which are then saved. The funding invoice is created, the
   * wallet id looked up, and the new record stored.
   */
  function AddEffect(
    m: map<string, Bounty>, test: Option<TestItem>, amountInput: Option<string>,
    storedUrl: Option<string>, storedKey: Option<string>,
    urlInput: Option<string>, keyInput: Option<string>,
    invoiceResponse: Response<InvoiceData>, walletResponse: Response<WalletData>, now: int): (e: Effect)
    requires AmountPromptResult(amountInput)
    // a test that already has a bounty: no change, no request, nothing saved
    ensures test.Some? && test.value.id in m ==> e == Stop(m, AlreadyHasBounty)
    ensures test.Some? && test.value.id !in m && !Truthy(amountInput) ==> e == Stop(m, Cancelled)
    // a dismissed URL or key prompt aborts before any request
    ensures (test.Some? && test.value.id !in m && Truthy(amountInput) && !(Truthy(storedUrl) && Truthy(storedKey))
             && !(Truthy(urlInput) && Truthy(keyInput))) ==> e == Stop(m, Cancelled)
    // the store changes only by a creation, which adds exactly the test's key
    ensures e.outcome != Created ==> e.store == m && !e.fires && !e.persists
    ensures e.outcome == Created <==>
              test.Some? && test.value.id !in m && Truthy(amountInput)
              && ((Truthy(storedUrl) && Truthy(storedKey)) || (Truthy(urlInput) && Truthy(keyInput)))
              && invoiceResponse.Ok?
    ensures e.outcome == Created ==>
              e.store.Keys == m.Keys + {test.value.id} && e.fires && e.persists
              && (forall k :: k in m ==> e.store[k] == m[k])
    // a failed invoice request leaves the store as it was
    ensures e.outcome.InvoiceFailed? ==> invoiceResponse.NotOk? && e.outcome.status == invoiceResponse.status
  {
    if test.None? then Stop(m, NoTestSelected)
    else if test.value.id in m then Stop(m, AlreadyHasBounty)
    else if !Truthy(amountInput) then Stop(m, Cancelled)
    else
      ValidateAmountRange(amountInput.value);
      ConfigStep(m, test.value, ParseInt(amountInput.value).value, storedUrl, storedKey, urlInput, keyInput,
                 invoiceResponse, walletResponse, now)
  }

  /**
   * The add handler once the amount is known: reuse the stored URL and key
   * when both are set, otherwise prompt for both (a dismissed prompt
   * cancels) and save them; then go on to the invoice.
   */
  function ConfigStep(
    m: map<string, Bounty>, item: TestItem, amountSats: nat,
    storedUrl: Option<string>, storedKey: Option<string>,
    urlInput: Option<string>, keyInput: Option<string>,
    invoiceResponse: Response<InvoiceData>, walletResponse: Response<WalletData>, now: int): Effect
  {
    var reuse := Truthy(storedUrl) && Truthy(storedKey);
    if !reuse && !Truthy(urlInput) then Stop(m, Cancelled)
    else if !reuse && !Truthy(keyInput) then Stop(m, Cancelled)
    else
      var config := if reuse then Config(storedUrl.value, storedKey.value) else Config(urlInput.value, keyInput.value);
      var saved := if reuse then None else Some(config);
      CreateStep(m, item, amountSats, config, saved, invoiceResponse, walletResponse, now)
  }

  /**
   * The rest of the add handler once the amount and the credentials are
   * known: create the invoice, and on success look up the wallet and
   * store the new record.
   */
  function CreateStep(
    m: map<string, Bounty>, item: TestItem, amountSats: nat, config: Config, saved: Option<Config>,
    invoiceResponse: Response<InvoiceData>, walletResponse: Response<WalletData>, now: int): Effect
  {
    var create := CreateInvoice(config.url, config.key, amountSats, InvoiceMemo(item));
    match invoiceResponse
    case NotOk(status, text) => Effect(InvoiceFailed(status, text), m, [create], false, false, saved)
    case NetworkError(message) => Effect(NetworkFailure(message), m, [create], false, false, saved)
    case Ok(data) =>
      var record := Bounty(amountSats, data.paymentRequest, Some(data.paymentHash), now, Some(item),
                           item.id, None, None, Unclaimed, Some(config.key), GetWalletId(walletResponse));
      Effect(Created, m[item.id := record], [create, WalletInfo(config.url, config.key)], true, true, saved)
  }

  // ---------------------------------------------------------------------
  // removeBountyCommand
  // ---------------------------------------------------------------------

  /** Remove the bounty of `test` once the creator picks "Yes, Remove". */
  function RemoveEffect(m: map<string, Bounty>, test: Option<TestItem>, confirmation: Option<string>): (e: Effect)
    ensures e.requests == [] && e.savedConfig == None
    ensures test.Some? && test.value.id !in m ==> e.outcome == NoBounty
    ensures e.outcome == Removed <==> test.Some? && test.value.id in m && confirmation == Some(RemoveChoice)
    ensures e.outcome == Removed ==>
              test.value.id !in e.store && e.store.Keys == m.Keys - {test.value.id}
              && (forall k :: k in e.store ==> e.store[k] == m[k]) && e.fires && e.persists
    ensures e.outcome != Removed ==> e.store == m && !e.fires && !e.persists
  {
    if test.None? then Stop(m, NoTestSelected)
    else if test.value.id !in m then Stop(m, NoBounty)
    else if confirmation != Some(RemoveChoice) then Stop(m, Cancelled)
    else Effect(Removed, m - {test.value.id}, [], true, true, None)
  }

  // ---------------------------------------------------------------------
  // checkPaidCommand
  // ---------------------------------------------------------------------

  /** Ask LNbits whether the funding invoice of `test`'s bounty is paid, and record it if so. */
  function CheckPaidEffect(
    m: map<string, Bounty>, test: Option<TestItem>,
    storedUrl: Option<string>, storedKey: Option<string>, statusResponse: Response<StatusData>): (e: Effect)
    ensures e.savedConfig == None
    // no record, or no payment hash: nothing to check
    ensures Selected(test) && (test.value.id !in m || !Truthy(m[test.value.id].paymentHash)) ==>
              e == Stop(m, NothingToCheck)
    ensures (Selected(test) && test.value.id in m && Truthy(m[test.value.id].paymentHash)
             && !(Truthy(storedUrl) && Truthy(storedKey))) ==> e == Stop(m, ConfigMissing)
    // the only request is the status lookup of the record's own payment hash
    ensures e.requests != [] ==>
              Selected(test) && test.value.id in m
              && e.requests == [PaymentStatus(storedUrl.value, storedKey.value, m[test.value.id].paymentHash.value)]
              && Verb(e.requests[0]) == "GET" && OutFlag(e.requests[0]).None?
              && Endpoint(e.requests[0]) == storedUrl.value + "/api/v1/payments/" + m[test.value.id].paymentHash.value
    // ... and it is sent whenever the record, its hash, the URL and the key are present
    ensures Selected(test) && test.value.id in m && Truthy(m[test.value.id].paymentHash)
            && Truthy(storedUrl) && Truthy(storedKey) ==>
              e.requests == [PaymentStatus(storedUrl.value, storedKey.value, m[test.value.id].paymentHash.value)]
    ensures e.outcome == Funded <==>
              Selected(test) && test.value.id in m && Truthy(m[test.value.id].paymentHash)
              && Truthy(storedUrl) && Truthy(storedKey) && statusResponse == Ok(StatusData(Some(true)))
    // funding only ever sets `paid` to true on that one record
    ensures e.outcome == Funded ==>
              e.store == m[test.value.id := m[test.value.id].(paid := Some(true))] && e.fires && e.persists
    ensures e.outcome != Funded ==> e.store == m && !e.fires && !e.persists
    ensures e.store.Keys == m.Keys
    ensures forall k :: k in m && IsPaid(m[k]) ==> IsPaid(e.store[k])
    ensures forall k :: k in m ==> e.store[k].claimStatus == m[k].claimStatus
  {
    if !Selected(test) then Stop(m, NoTestSelected)
    else if test.value.id !in m || !Truthy(m[test.value.id].paymentHash) then Stop(m, NothingToCheck)
    else if !Truthy(storedUrl) || !Truthy(storedKey) then Stop(m, ConfigMissing)
    else
      var bounty := m[test.value.id];
      var lookup := PaymentStatus(storedUrl.value, storedKey.value, bounty.paymentHash.value);
      match statusResponse
      case NotOk(status, _) => Effect(StatusCheckFailed(status), m, [lookup], false, false, None)
      case NetworkError(message) => Effect(NetworkFailure(message), m, [lookup], false, false, None)
      case Ok(data) =>
        if data.paid == Some(true) then
          Effect(Funded, m[test.value.id := bounty.(paid := Some(true))], [lookup], true, true, None)
        else
          Effect(NotYetPaid, m, [lookup], false, false, None)
  }

  // ---------------------------------------------------------------------
  // claimBountyCommand
  // ---------------------------------------------------------------------

  /**
   * Claim `test`'s bounty with the claimant's payout invoice. The record
   * becomes pending and is persisted; the change event does not fire.
   */
  function ClaimEffect(m: map<string, Bounty>, test: Option<TestItem>, claimInvoice: Option<string>): (e: Effect)
    requires ClaimPromptResult(claimInvoice)
    ensures e.requests == [] && !e.fires && e.savedConfig == None
    // only a funded, unclaimed record can be claimed
    ensures Selected(test) && (test.value.id !in m || !Claimable(m[test.value.id])) ==> e == Stop(m, NotClaimable)
    ensures e.outcome == ClaimPending <==>
              Selected(test) && test.value.id in m && Claimable(m[test.value.id]) && Truthy(claimInvoice)
    ensures e.outcome == ClaimPending ==>
              e.store == m[test.value.id := m[test.value.id].(claimedBy := claimInvoice, claimStatus := Pending)]
              && e.persists && FromClaim(e.store[test.value.id])
              && StartsWith(e.store[test.value.id].claimedBy.value, InvoicePrefix)
    ensures e.outcome != ClaimPending ==> e.store == m && !e.persists
  {
    if !Selected(test) then Stop(m, NoTestSelected)
    else if test.value.id !in m || !Claimable(m[test.value.id]) then Stop(m, NotClaimable)
    else if !Truthy(claimInvoice) then Stop(m, Cancelled)
    else
      var bounty := m[test.value.id].(claimedBy := claimInvoice, claimStatus := Pending);
      Effect(ClaimPending, m[test.value.id := bounty], [], false, true, None)
  }

  // ---------------------------------------------------------------------
  // executePayout and the creator's decision
  // ---------------------------------------------------------------------

  /**
   * The requests of the add handler: an incoming payment (a POST with
   * `out: false` to the payments endpoint) for the parsed amount, sent
   * with the stored URL and key when both are set and otherwise with the
   * prompted ones, which are then saved; after it, a GET of the wallet.
   */
  lemma AddRequests(
    m: map<string, Bounty>, test: Option<TestItem>, amountInput: Option<string>,
    storedUrl: Option<string>, storedKey: Option<string>,
    urlInput: Option<string>, keyInput: Option<string>,
    invoiceResponse: Response<InvoiceData>, walletResponse: Response<WalletData>, now: int)
    requires AmountPromptResult(amountInput)
    ensures var e := AddEffect(m, test, amountInput, storedUrl, storedKey, urlInput, keyInput,
                               invoiceResponse, walletResponse, now);
            (e.requests != [] ==>
               test.Some? && Truthy(amountInput)
               && e.requests[0] == CreateInvoice(e.requests[0].baseUrl, e.requests[0].apiKey,
                                                 ParseInt(amountInput.value).value, InvoiceMemo(test.value))
               && e.requests[0].baseUrl != "" && e.requests[0].apiKey != ""
               && Verb(e.requests[0]) == "POST" && OutFlag(e.requests[0]) == Some(false)
               && Endpoint(e.requests[0]) == e.requests[0].baseUrl + "/api/v1/payments")
            // stored credentials are reused as they are, and nothing is saved
            && (e.requests != [] && Truthy(storedUrl) && Truthy(storedKey) ==>
                  e.savedConfig == None
                  && e.requests[0].baseUrl == storedUrl.value && e.requests[0].apiKey == storedKey.value)
            // otherwise the prompted credentials are used and saved
            && (e.requests != [] && !(Truthy(storedUrl) && Truthy(storedKey)) ==>
                  e.savedConfig == Some(Config(urlInput.value, keyInput.value))
                  && e.requests[0].baseUrl == urlInput.value && e.requests[0].apiKey == keyInput.value)
            && (e.requests == [] ==> e.savedConfig == None)
  {
  }

  /**
   * The record a successful add stores: the parsed amount, the invoice and
   * hash of the response, status none, unpaid, the key the invoice was
   * created with, and the wallet id if the lookup succeeded.
   */
  lemma AddCreatesRecord(
    m: map<string, Bounty>, test: Option<TestItem>, amountInput: Option<string>,
    storedUrl: Option<string>, storedKey: Option<string>,
    urlInput: Option<string>, keyInput: Option<string>,
    invoiceResponse: Response<InvoiceData>, walletResponse: Response<WalletData>, now: int)
    requires AmountPromptResult(amountInput)
    ensures var e := AddEffect(m, test, amountInput, storedUrl, storedKey, urlInput, keyInput,
                               invoiceResponse, walletResponse, now);
            e.outcome == Created ==>
              var b := e.store[test.value.id];
              |e.requests| == 2 && e.requests[1] == WalletInfo(e.requests[0].baseUrl, e.requests[0].apiKey)
              && Verb(e.requests[1]) == "GET" && Endpoint(e.requests[1]) == e.requests[0].baseUrl + "/api/v1/wallet"
              && b.amountSats == ParseInt(amountInput.value).value && MinSats <= b.amountSats <= MaxSats
              && b.invoice == invoiceResponse.data.paymentRequest
              && b.paymentHash == Some(invoiceResponse.data.paymentHash)
              && b.createdAt == now && b.testItem == test && b.testId == test.value.id
              && b.paid == None && b.claimedBy == None && b.claimStatus == Unclaimed
              && b.creatorApiKey == Some(e.requests[0].apiKey)
              && b.creatorWalletId == GetWalletId(walletResponse)
  {
  }

  /**
   * `executePayout`: pay `claimInvoice` with the key captured in the
   * record at creation (the global secret is not consulted), and on
   * success write the record back to `test.id`, paid and approved.
   */
  function ExecutePayoutEffect(
    m: map<string, Bounty>, test: TestItem, captured: Bounty, claimInvoice: string,
    storedUrl: Option<string>, payoutResponse: Response<PayoutData>): (e: Effect)
    ensures !e.fires && e.savedConfig == None
    ensures !Truthy(storedUrl) || !Truthy(captured.creatorApiKey) ==> e == Stop(m, ConfigMissing)
    // the payout is sent with the record's own key
    ensures e.requests != [] ==>
              e.requests == [SendPayout(storedUrl.value, captured.creatorApiKey.value, claimInvoice, PayoutMemo(test))]
    // ... and it is sent whenever the URL and the record's key are set
    ensures Truthy(storedUrl) && Truthy(captured.creatorApiKey) ==>
              e.requests == [SendPayout(storedUrl.value, captured.creatorApiKey.value, claimInvoice, PayoutMemo(test))]
    ensures e.outcome.PayoutSent? <==> Truthy(storedUrl) && Truthy(captured.creatorApiKey) && payoutResponse.Ok?
    ensures e.outcome.PayoutSent? ==>
              e.store == m[test.id := captured.(paid := Some(true), claimStatus := Approved)]
              && IsPaid(e.store[test.id]) && e.store[test.id].claimStatus == Approved && e.persists
    // a failed payout leaves the store as it was: the claim stays pending
    ensures !e.outcome.PayoutSent? ==> e.store == m && !e.persists
  {
    if !Truthy(storedUrl) || !Truthy(captured.creatorApiKey) then Stop(m, ConfigMissing)
    else
      var payout := SendPayout(storedUrl.value, captured.creatorApiKey.value, claimInvoice, PayoutMemo(test));
      match payoutResponse
      case NotOk(_, text) => Effect(PayoutFailed(text), m, [payout], false, false, None)
      case NetworkError(message) => Effect(NetworkFailure(message), m, [payout], false, false, None)
      case Ok(data) =>
        var approved := captured.(paid := Some(true), claimStatus := Approved);
        Effect(PayoutSent(data.checkingId), m[test.id := approved], [payout], false, true, None)
  }

  /** The payout is an outgoing payment: a POST with `out: true` to the payments endpoint of the stored URL. */
  lemma PayoutRequestsOutgoingPayment(
    m: map<string, Bounty>, test: TestItem, captured: Bounty, claimInvoice: string,
    storedUrl: Option<string>, payoutResponse: Response<PayoutData>)
    ensures var e := ExecutePayoutEffect(m, test, captured, claimInvoice, storedUrl, payoutResponse);
            e.requests != [] ==>
              Verb(e.requests[0]) == "POST" && OutFlag(e.requests[0]) == Some(true)
              && Endpoint(e.requests[0]) == storedUrl.value + "/api/v1/payments"
  {
  }

  /** The creator picks "Approve Payout": the payout runs, then the change event fires whatever its outcome. */
  function ApproveEffect(
    m: map<string, Bounty>, test: TestItem, captured: Bounty, claimInvoice: string,
    storedUrl: Option<string>, payoutResponse: Response<PayoutData>): (e: Effect)
    ensures e.fires
    ensures e.(fires := false) == ExecutePayoutEffect(m, test, captured, claimInvoice, storedUrl, payoutResponse)
  {
    ExecutePayoutEffect(m, test, captured, claimInvoice, storedUrl, payoutResponse).(fires := true)
  }

  /** The creator picks "Reject": the captured record is written back to `test.id`, rejected. */
  function RejectEffect(m: map<string, Bounty>, test: TestItem, captured: Bounty): (e: Effect)
    ensures e.outcome == ClaimRejected && e.requests == [] && e.fires && e.persists
    ensures e.store.Keys == m.Keys + {test.id}
    ensures e.store[test.id] == captured.(claimStatus := Rejected) && !Claimable(e.store[test.id])
    ensures forall k :: k in m && k != test.id ==> e.store[k] == m[k]
  {
    Effect(ClaimRejected, m[test.id := captured.(claimStatus := Rejected)], [], true, true, None)
  }

  // ---------------------------------------------------------------------
  // Properties of one lifecycle
  // ---------------------------------------------------------------------

  /**
   * With a URL and key stored, the URL and key prompts are never
   * consulted: the answers they would give change nothing.
   */
  lemma AddIgnoresPromptsWhenConfigured(
    m: map<string, Bounty>, test: Option<TestItem>, amountInput: Option<string>,
    storedUrl: Option<string>, storedKey: Option<string>,
    urlInput: Option<string>, keyInput: Option<string>, urlInput': Option<string>, keyInput': Option<string>,
    invoiceResponse: Response<InvoiceData>, walletResponse: Response<WalletData>, now: int)
    requires AmountPromptResult(amountInput)
    requires Truthy(storedUrl) && Truthy(storedKey)
    ensures AddEffect(m, test, amountInput, storedUrl, storedKey, urlInput, keyInput, invoiceResponse, walletResponse, now)
         == AddEffect(m, test, amountInput, storedUrl, storedKey, urlInput', keyInput', invoiceResponse, walletResponse, now)
  {
  }

  /** Every amount from 1 to 50,000,000 typed in decimal creates a bounty of exactly that amount. */
  lemma AddStoresTypedAmount(
    m: map<string, Bounty>, test: TestItem, n: nat, config: Config,
    invoiceResponse: Response<InvoiceData>, walletResponse: Response<WalletData>, now: int)
    requires test.id !in m && MinSats <= n <= MaxSats
    requires config.url != "" && config.key != "" && invoiceResponse.Ok?
    ensures AmountPromptResult(Some(Decimal(n)))
    ensures var e := AddEffect(m, Some(test), Some(Decimal(n)), Some(config.url), Some(config.key), None, None,
                               invoiceResponse, walletResponse, now);
            e.outcome == Created && e.store[test.id].amountSats == n
            && e.store[test.id].claimStatus == Unclaimed
  {
    ValidateAmountDecimal(n, []);
    ParseIntDecimal(n, []);
    assert Decimal(n) + [] == Decimal(n);
  }

  /** Removing twice: the bounty is gone after the first, and the second reports that there is none. */
  lemma RemoveTwice(m: map<string, Bounty>, test: TestItem, confirmation: Option<string>)
    requires test.id in m && confirmation == Some(RemoveChoice)
    ensures var e := RemoveEffect(m, Some(test), confirmation);
            test.id !in e.store && RemoveEffect(e.store, Some(test), confirmation) == Stop(e.store, NoBounty)
  {
  }

  /**
   * Claim then reject: the record ends rejected, and a second claim is
   * refused without any change.
   */
  lemma ClaimThenReject(m: map<string, Bounty>, test: TestItem, claimInvoice: Option<string>, again: Option<string>)
    requires ClaimPromptResult(claimInvoice) && ClaimPromptResult(again)
    requires test.id != "" && test.id in m && Claimable(m[test.id]) && Truthy(claimInvoice)
    ensures var claim := ClaimEffect(m, Some(test), claimInvoice);
            var reject := RejectEffect(claim.store, test, claim.store[test.id]);
            claim.outcome == ClaimPending
            && reject.store[test.id].claimStatus == Rejected
            && reject.store[test.id].claimedBy == claimInvoice
            && ClaimEffect(reject.store, Some(test), again) == Stop(reject.store, NotClaimable)
  {
  }

  /**
   * Claim then a successful payout: the record ends paid and approved,
   * the payout used the key captured when the bounty was created, and a
   * second claim is refused without any change.
   */
  lemma ClaimThenApprove(
    m: map<string, Bounty>, test: TestItem, claimInvoice: Option<string>, storedUrl: Option<string>,
    payoutResponse: Response<PayoutData>, again: Option<string>)
    requires ClaimPromptResult(claimInvoice) && ClaimPromptResult(again)
    requires test.id != "" && test.id in m && Claimable(m[test.id]) && Truthy(claimInvoice)
    requires Truthy(storedUrl) && Truthy(m[test.id].creatorApiKey) && payoutResponse.Ok?
    ensures var claim := ClaimEffect(m, Some(test), claimInvoice);
            var approve := ApproveEffect(claim.store, test, claim.store[test.id], claimInvoice.value,
                                         storedUrl, payoutResponse);
            claim.outcome == ClaimPending && approve.outcome.PayoutSent?
            && approve.requests[0].apiKey == m[test.id].creatorApiKey.value
            && approve.requests[0].bolt11 == claimInvoice.value
            && IsPaid(approve.store[test.id]) && approve.store[test.id].claimStatus == Approved
            && ClaimEffect(approve.store, Some(test), again) == Stop(approve.store, NotClaimable)
  {
  }

  // ---------------------------------------------------------------------
  // Properties of every sequence of commands
  // ---------------------------------------------------------------------

  /** One invocation of a handler, with everything it reads from outside the store. */
  datatype Action =
    | AddAction(test: Option<TestItem>, amountInput: Option<string>,
                storedUrl: Option<string>, storedKey: Option<string>,
                urlInput: Option<string>, keyInput: Option<string>,
                invoiceResponse: Response<InvoiceData>, walletResponse: Response<WalletData>, now: int)
    | RemoveAction(test: Option<TestItem>, confirmation: Option<string>)
    | CheckPaidAction(test: Option<TestItem>, storedUrl: Option<string>, storedKey: Option<string>,
                      statusResponse: Response<StatusData>)
    | ClaimAction(test: Option<TestItem>, claimInvoice: Option<string>)
    | ApproveAction(item: TestItem, captured: Bounty, bolt11: string, storedUrl: Option<string>,
                    payoutResponse: Response<PayoutData>)
    | RejectAction(item: TestItem, captured: Bounty)

  /**
   * A decision's record is live: it is the map's own entry, as the claim
   * left it pending. The continuation of the claim holds the map's object
   * itself, so only a removal of the key can separate the two.
   */
  predicate Live(m: map<string, Bounty>, item: TestItem, captured: Bounty)
  {
    item.id in m && m[item.id] == captured && FromClaim(captured)
  }

  /**
   * Admits at least every invocation the host can produce on the store
   * `m` (and some it cannot, such as a second decision on one claim): prompts return
   * only what their `validateInput` accepts, and a decision acts on the
   * live record of its claim. (A decision after its record was removed is
   * excluded here; `StaleRejectRestoresRemovedRecord` shows what it does.)
   */
  predicate Admissible(m: map<string, Bounty>, a: Action)
  {
    match a
    case AddAction(_, amountInput, _, _, _, _, _, _, _) => AmountPromptResult(amountInput)
    case ClaimAction(_, claimInvoice) => ClaimPromptResult(claimInvoice)
    case ApproveAction(item, captured, _, _, _) => Live(m, item, captured)
    case RejectAction(item, captured) => Live(m, item, captured)
    case _ => true
  }

  function Apply(m: map<string, Bounty>, a: Action): Effect
    requires Admissible(m, a)
  {
    match a
    case AddAction(test, amountInput, storedUrl, storedKey, urlInput, keyInput, invoiceResponse, walletResponse, now) =>
      AddEffect(m, test, amountInput, storedUrl, storedKey, urlInput, keyInput, invoiceResponse, walletResponse, now)
    case RemoveAction(test, confirmation) => RemoveEffect(m, test, confirmation)
    case CheckPaidAction(test, storedUrl, storedKey, statusResponse) =>
      CheckPaidEffect(m, test, storedUrl, storedKey, statusResponse)
    case ClaimAction(test, claimInvoice) => ClaimEffect(m, test, claimInvoice)
    case ApproveAction(item, captured, bolt11, storedUrl, payoutResponse) =>
      ApproveEffect(m, item, captured, bolt11, storedUrl, payoutResponse)
    case RejectAction(item, captured) => RejectEffect(m, item, captured)
  }

  /** Every command of `actions` is admissible in the store it meets. */
  predicate AllAdmissible(m: map<string, Bounty>, actions: seq<Action>)
    decreases |actions|
  {
    |actions| == 0 || (Admissible(m, actions[0]) && AllAdmissible(Apply(m, actions[0]).store, actions[1..]))
  }

  /** The store after running `actions` in order from `m`. */
  function Run(m: map<string, Bounty>, actions: seq<Action>): map<string, Bounty>
    requires AllAdmissible(m, actions)
    decreases |actions|
  {
    if |actions| == 0 then m else Run(Apply(m, actions[0]).store, actions[1..])
  }

  /** `a` is a confirmed remove command aimed at the key `id` (a cancelled one changes nothing). */
  predicate RemovesKey(a: Action, id: string)
  {
    a.RemoveAction? && a.test.Some? && a.test.value.id == id && a.confirmation == Some(RemoveChoice)
  }

  /** Claim progress: none, then pending, then a decision. */
  function Rank(c: ClaimStatus): nat
  {
    match c
    case Unclaimed => 0
    case Pending => 1
    case Approved => 2
    case Rejected => 2
  }

  /** The creator has decided the claim. */
  predicate Decided(c: ClaimStatus)
  {
    c == Approved || c == Rejected
  }

  /**
   * One step of the claim's state machine: the status stays, a claim
   * moves none to pending, or a decision moves pending to approved or
   * rejected.
   */
  predicate Edge(c: ClaimStatus, c': ClaimStatus)
  {
    c' == c || (c == Unclaimed && c' == Pending) || (c == Pending && Decided(c'))
  }

  /** The terms fixed when the bounty is created: amount, invoice, hash, creation time, test and creator. */
  predicate SameTerms(b: Bounty, b': Bounty)
  {
    b'.amountSats == b.amountSats && b'.invoice == b.invoice && b'.paymentHash == b.paymentHash
    && b'.createdAt == b.createdAt && b'.testId == b.testId && b'.testItem == b.testItem
    && b'.creatorApiKey == b.creatorApiKey && b'.creatorWalletId == b.creatorWalletId
  }

  /**
   * A record's claim is either open, or it is funded and names the
   * claimant's invoice.
   */
  predicate Consistent(b: Bounty)
  {
    b.claimStatus != Unclaimed ==> IsPaid(b) && Truthy(b.claimedBy)
  }

  predicate AllConsistent(m: map<string, Bounty>)
  {
    forall k :: k in m ==> Consistent(m[k])
  }

  /**
   * One command keeps a record that is not removed, keeps its terms and
   * its `paid` flag, never moves its claim back, and never changes a
   * decided claim.
   */
  lemma StepKeepsRecord(m: map<string, Bounty>, a: Action, id: string)
    requires Admissible(m, a) && id in m && !RemovesKey(a, id)
    ensures id in Apply(m, a).store
    ensures SameTerms(m[id], Apply(m, a).store[id])
    ensures IsPaid(m[id]) ==> IsPaid(Apply(m, a).store[id])
    ensures Rank(m[id].claimStatus) <= Rank(Apply(m, a).store[id].claimStatus)
    ensures Decided(m[id].claimStatus) ==> Apply(m, a).store[id].claimStatus == m[id].claimStatus
    ensures Edge(m[id].claimStatus, Apply(m, a).store[id].claimStatus)
  {
    var b, b' := m[id], Apply(m, a).store[id];
    match a
    case AddAction(test, amountInput, storedUrl, storedKey, urlInput, keyInput, invoiceResponse, walletResponse, now) =>
      assert b' == b;
    case RemoveAction(test, confirmation) =>
      assert b' == b;
    case CheckPaidAction(test, storedUrl, storedKey, statusResponse) =>
      assert b' == b || b' == b.(paid := Some(true));
    case ClaimAction(test, claimInvoice) =>
      assert b' == b || (b.claimStatus == Unclaimed && b' == b.(claimedBy := claimInvoice, claimStatus := Pending));
    case ApproveAction(item, captured, bolt11, storedUrl, payoutResponse) =>
      assert b' == b || (b.claimStatus == Pending && b' == b.(paid := Some(true), claimStatus := Approved));
    case RejectAction(item, captured) =>
      assert b' == b || (b.claimStatus == Pending && b' == b.(claimStatus := Rejected));
  }

  /**
   * Over any sequence of commands that does not remove the bounty, `paid`
   * never goes from true back to false.
   */
  lemma {:induction false} PaidIsMonotone(m: map<string, Bounty>, actions: seq<Action>, id: string)
    requires AllAdmissible(m, actions)
    requires forall i :: 0 <= i < |actions| ==> !RemovesKey(actions[i], id)
    requires id in m && IsPaid(m[id])
    ensures id in Run(m, actions) && IsPaid(Run(m, actions)[id])
    decreases |actions|
  {
    if |actions| > 0 {
      StepKeepsRecord(m, actions[0], id);
      PaidIsMonotone(Apply(m, actions[0]).store, actions[1..], id);
    }
  }

  /**
   * Over any sequence of commands that does not remove the bounty, its
   * claim only advances: none, pending, then approved or rejected; and
   * once approved or rejected it stays so.
   */
  lemma {:induction false} ClaimNeverRegresses(m: map<string, Bounty>, actions: seq<Action>, id: string)
    requires AllAdmissible(m, actions)
    requires forall i :: 0 <= i < |actions| ==> !RemovesKey(actions[i], id)
    requires id in m
    ensures id in Run(m, actions)
    ensures Rank(m[id].claimStatus) <= Rank(Run(m, actions)[id].claimStatus)
    ensures Decided(m[id].claimStatus) ==> Run(m, actions)[id].claimStatus == m[id].claimStatus
    decreases |actions|
  {
    if |actions| > 0 {
      StepKeepsRecord(m, actions[0], id);
      ClaimNeverRegresses(Apply(m, actions[0]).store, actions[1..], id);
    }
  }

  /** The stores a run passes through: `m`, then the store after each command. */
  function Stores(m: map<string, Bounty>, actions: seq<Action>): (r: seq<map<string, Bounty>>)
    requires AllAdmissible(m, actions)
    ensures |r| == |actions| + 1 && r[0] == m && r[|actions|] == Run(m, actions)
    decreases |actions|
  {
    if |actions| == 0 then [m] else [m] + Stores(Apply(m, actions[0]).store, actions[1..])
  }

  /**
   * Over any sequence of commands that does not remove the bounty, every
   * command moves its claim by one step of the state machine: a claim
   * reaches pending only from none, and a decision only from pending.
   */
  lemma {:induction false} ClaimFollowsMachine(m: map<string, Bounty>, actions: seq<Action>, id: string)
    requires AllAdmissible(m, actions)
    requires forall i :: 0 <= i < |actions| ==> !RemovesKey(actions[i], id)
    requires id in m
    ensures forall i :: 0 <= i <= |actions| ==> id in Stores(m, actions)[i]
    ensures forall i :: 0 <= i < |actions| ==>
              Edge(Stores(m, actions)[i][id].claimStatus, Stores(m, actions)[i + 1][id].claimStatus)
    decreases |actions|
  {
    if |actions| > 0 {
      var m', rest := Apply(m, actions[0]).store, actions[1..];
      StepKeepsRecord(m, actions[0], id);
      assert forall i :: 0 <= i < |rest| ==> rest[i] == actions[i + 1];
      ClaimFollowsMachine(m', rest, id);
      var s, t := Stores(m, actions), Stores(m', rest);
      assert forall i :: 0 < i <= |actions| ==> s[i] == t[i - 1];
    }
  }

  /**
   * Over any sequence of commands that does not remove the bounty, its
   * amount, invoice, payment hash, creation time, test and creator key
   * stay as they were written at creation.
   */
  lemma {:induction false} TermsAreWriteOnce(m: map<string, Bounty>, actions: seq<Action>, id: string)
    requires AllAdmissible(m, actions)
    requires forall i :: 0 <= i < |actions| ==> !RemovesKey(actions[i], id)
    requires id in m
    ensures id in Run(m, actions) && SameTerms(m[id], Run(m, actions)[id])
    decreases |actions|
  {
    if |actions| > 0 {
      StepKeepsRecord(m, actions[0], id);
      TermsAreWriteOnce(Apply(m, actions[0]).store, actions[1..], id);
    }
  }

  /** One command keeps every record consistent. */
  lemma StepKeepsConsistent(m: map<string, Bounty>, a: Action)
    requires Admissible(m, a) && AllConsistent(m)
    ensures AllConsistent(Apply(m, a).store)
  {
    match a
    case AddAction(test, amountInput, storedUrl, storedKey, urlInput, keyInput, invoiceResponse, walletResponse, now) =>
    case RemoveAction(test, confirmation) =>
    case CheckPaidAction(test, storedUrl, storedKey, statusResponse) =>
    case ClaimAction(test, claimInvoice) =>
    case ApproveAction(item, captured, bolt11, storedUrl, payoutResponse) =>
    case RejectAction(item, captured) =>
  }

  /** Every sequence of commands keeps every record consistent: no claim without funding and an invoice. */
  lemma {:induction false} RunKeepsConsistent(m: map<string, Bounty>, actions: seq<Action>)
    requires AllAdmissible(m, actions) && AllConsistent(m)
    ensures AllConsistent(Run(m, actions))
    decreases |actions|
  {
    if |actions| > 0 {
      StepKeepsConsistent(m, actions[0]);
      RunKeepsConsistent(Apply(m, actions[0]).store, actions[1..]);
    }
  }

  /**
   * What a decision does when its bounty was removed and added again
   * after the claim: the record the continuation captured is written
   * back over the new bounty, restoring the old amount and invoice.
   */
  lemma StaleRejectRestoresRemovedRecord(
    m: map<string, Bounty>, test: TestItem, captured: Bounty, amountInput: Option<string>,
    config: Config, invoiceResponse: Response<InvoiceData>, walletResponse: Response<WalletData>, now: int)
    requires Live(m, test, captured)
    requires AmountPromptResult(amountInput) && Truthy(amountInput)
    requires config.url != "" && config.key != "" && invoiceResponse.Ok?
    requires ParseInt(amountInput.value).value != captured.amountSats
    ensures var removed := RemoveEffect(m, Some(test), Some(RemoveChoice));
            var added := AddEffect(removed.store, Some(test), amountInput, Some(config.url), Some(config.key),
                                   None, None, invoiceResponse, walletResponse, now);
            var rejected := RejectEffect(added.store, test, captured);
            removed.outcome == Removed && added.outcome == Created
            && added.store[test.id].amountSats != captured.amountSats
            && rejected.store[test.id].amountSats == captured.amountSats
            && rejected.store[test.id].invoice == captured.invoice
  {
  }
}

=== FILE: wrappers.dfy ===
/** The optional value that stands for TypeScript's `T | undefined`. */
module Wrappers {

  datatype Option<+T> = None | Some(value: T)
}
